=== FILE: README.md ===
# ooni-probe nettest core, modelled in Dafny

This project models the input-driven part of ooni-probe's nettest engine,
`ooni/nettest.py`:

- `InputTestSuite.run` drains a queue of tests. Before each pop it polls
  `result.shouldStop`. It stamps each test with the suite's `input` and a
  running index `_idx`, runs it, and advances the index. Module
  `InputSuite`, file `input_suite.dfy`.
- `NetTestCase.inputProcessor` turns an input file into one value per line,
  each with Python 2 `str.strip()` applied. Module `InputProcessor`, file
  `input_processor.dfy`.
- `NetTestCase._processOptions` chooses the nettest's inputs (the static
  list or the lines of `inputFile`) and checks `requiredOptions`. Module
  `ProcessOptions`, file `process_options.dfy`.
- `NetTestCase.deferSetUp` decides whether the report header is written
  together with the test's setup. Module `SetupCoordinator`, file
  `setup.dfy`.

`values.dfy` (module `Values`) holds the Python values the core handles:
inputs and option values with Python truthiness, and the exceptions
`_processOptions` can raise.

Modelling choices:

- The file system is a map from the paths of regular files to an entry:
  readable with its contents, or one that `open` fails on (`IOError`).
  `os.path.isfile` is membership.
- A nettest's `inputProcessor` may be replaced by the nettest (lines
  156-174). `_processOptions` therefore takes it as a parameter, a function
  from the file's contents to the inputs. `ProcessOptions.FileInputs` is the
  default one: `open` plus `xreadlines` is `InputProcessor.Lines` over the
  contents, and each line is stripped.
- `result.shouldStop` is a function of the executions performed so far. A
  running test may set it, so it is not a constant.
- Running a test, `test(result)`, is one `Execution` record appended to a
  trace. Whether setting `input`/`_idx` on a test raises is the test's
  `acceptsInput` flag.
- `deferSetUp` is a pure function of `reporterFactory.firstrun`. It returns
  which actions are launched and whether they are joined. A result without
  a reporter factory is modelled as an absent factory (see Findings).
- Two Python failures that callers are never protected from are modelled as
  outcomes instead of being ruled out:
  - `options[name]` on a name missing from the mapping raises `KeyError`.
  - `inputs[0]` on an empty inputs list raises `IndexError`.

Behaviour of the code worth noting:

- The required options are checked only when the options mapping is truthy
  (non-empty). They are checked in list order, and the first one that fails
  is reported. A name missing from the mapping raises `KeyError` (line 200);
  only a present but falsy value raises `UsageError("<name> not
  specified!")` (line 201).
- The class docstring (ooni/nettest.py:71-75) describes `inputFile` as a
  four-element list. While assertions are enabled, the code only reads a
  file when `inputFile` is a `str` (line 184). Any other truthy value is logged and the inputs stay as they
  were.
- The third branch of the input selection (`UsageError("No input file
  specified!")`, lines 193-194) tests the same condition as the first
  branch, so it can never run. It is kept in `ProcessOptions.SelectInputs`
  under an `assert false`, and `ProcessOptions.NoInputFileNeverRaised`
  proves that error is never raised.
- `InputTestSuite` declares no `input` attribute (lines 19-27). Until a
  caller sets one, reading `self.input` at lines 39-42 raises inside the `try`,
  so every test runs unstamped. The model's suite input is therefore
  optional.

## Model

| member | source | states |
|---|---|---|
| InputSuite.Run | ooni/nettest.py:28-57 | At most as many tests run as were queued, front first, each once. The i-th run gets the suite's input and index idx+i. It is stamped exactly when the suite has an input and the test accepts the assignment, so a suite with no input stamps no test. The unrun tests stay queued unchanged. `_idx` ends at idx plus the number of runs. The stop flag was false before every run. The run ends early only when the flag is true. |
| InputSuite.ResumeContinues | ooni/nettest.py:31-56 | After a stop after k runs, running the remaining queue from the reached index continues the uninterrupted run's executions exactly. |
| InputProcessor.Strip | ooni/nettest.py:178 | The result is the contents between the leading and trailing whitespace (" \t\n\r\x0b\x0c"). Both cut parts are all whitespace. The result has no whitespace at either end. It is empty exactly when the input is all whitespace. |
| InputProcessor.StripUnique | ooni/nettest.py:178 | Any split of the input into whitespace, a text without outer whitespace, and whitespace strips to that text (an independent definition of strip). |
| InputProcessor.StripIdempotent | ooni/nettest.py:178 | Stripping a stripped value changes nothing. |
| InputProcessor.Lines | ooni/nettest.py:177 | The lines concatenate back to the contents. Each is non-empty with a newline at most at its end. All but the last end in a newline. |
| InputProcessor.LinesUnique | ooni/nettest.py:177 | Any split with that line shape is the one `xreadlines` yields. |
| InputProcessor.LinesAppend | ooni/nettest.py:177 | For contents cut just after a newline, the lines of the whole are the lines of the first part followed by those of the second. |
| InputProcessor.LinesCount | ooni/nettest.py:177 | Number of lines = number of newlines, plus one if the contents end in an unterminated line. |
| InputProcessor.Process | ooni/nettest.py:176-179 | One value per line, in file order, each the stripped line. No line is filtered out. |
| InputProcessor.ProcessValues | ooni/nettest.py:177-178 | Each value has no whitespace at either end and no newline. It is unchanged by a second strip. It is "" exactly when its line is blank. |
| InputProcessor.ProcessCount | ooni/nettest.py:177-178 | The number of values equals the number of newlines, plus one for an unterminated final line. |
| InputProcessor.ProcessAppend | ooni/nettest.py:177-178 | The values of a file are those of its leading lines followed by those of the rest, so they follow file order. |
| InputProcessor.ProcessExample | ooni/nettest.py:176-179 | "  foo \nbar\n" yields ["foo", "bar"]. |
| ProcessOptions.SelectInputs | ooni/nettest.py:182-194 | The inputs are replaced by what the nettest's input processor yields for the file's contents exactly when `inputFile` is a non-empty str naming a readable regular file. Otherwise they are kept. A regular file that cannot be opened raises IOError (line 189). The only other modelled error is IndexError, for a falsy inputFile and an empty inputs list. |
| ProcessOptions.FirstUnsatisfied | ooni/nettest.py:198-201 | Finds the position of the first required option, in list order, without a truthy value. All before it are satisfied. |
| ProcessOptions.CheckRequired | ooni/nettest.py:197-201 | No error exactly when the options mapping is falsy or every required option has a truthy value. |
| ProcessOptions.ProcessOptions | ooni/nettest.py:181-207 | Only `inputs` changes, and only when the file is read, to what the input processor yields for its contents. An unreadable file raises IOError before any option is checked. Success happens exactly when the selection did not fail and the required options hold (or the mapping is falsy). On success the result is exactly {inputs, name, version}. Every UsageError names a required option. |
| ProcessOptions.FirstUnsatisfiedReported | ooni/nettest.py:197-201 | When the input selection succeeded and the k-th required option is the first unsatisfied one, it is the one raised: UsageError("<name> not specified!") if present but falsy, KeyError if absent. |
| ProcessOptions.NoOptionsNoCheck | ooni/nettest.py:197 | With a falsy options mapping no required option is checked, and the call succeeds whenever the input selection does. |
| ProcessOptions.NoInputFileNeverRaised | ooni/nettest.py:182-194 | UsageError("No input file specified!") is never raised. |
| ProcessOptions.UnreadableFileRaises | ooni/nettest.py:188-189 | For every nettest, input processor and options: when `inputFile` names a regular file that `open` cannot read, the call raises IOError for that path, and the nettest is left unchanged. |
| ProcessOptions.DefaultProcessorInputs | ooni/nettest.py:176-190 | With the default input processor, a readable file's inputs are one str per line of the file, in order, each the stripped line, with no whitespace at either end and no newline. |
| ProcessOptions.MissingFileKeepsInputs | ooni/nettest.py:182-190 | A path that is not a regular file leaves the inputs as configured. For a non-empty path the input selection raises nothing, so the call succeeds exactly when the required-option check passes. |
| SetupCoordinator.DeferSetUp | ooni/nettest.py:146-154 | The setup is always launched, and launched last. The header write is launched exactly when firstrun holds. The two are joined exactly then. No action is launched twice. firstrun is only read, never changed. |
| SetupCoordinator.DeferSetUpAsWritten | ooni/nettest.py:146-154 | With a reporter factory the result is the decision of DeferSetUp on its firstrun. Without one the call raises AttributeError, because line 146 reads the attribute unguarded. |
| SetupCoordinator.MissingFactoryRaises | ooni/nettest.py:141-146 | A result without a reporter factory raises AttributeError rather than running the setup alone, as the docstring promises. |
| SetupCoordinator.DeferSetUpIntended | ooni/nettest.py:141-154 | Never raises. The setup is always launched. The header write happens exactly when a factory is present and in its first run. Without a factory only the setup runs. With a factory it agrees with the code. |
| SetupCoordinator.HeaderOnce | ooni/nettest.py:146-154 | Assume a reporter factory that clears firstrun after it is asked for the header. Then over n runs the header is requested once (when it starts in its first run) and the setup n times. |

## Findings

| source | as written | input that shows it | evidently intended | confidence | as-written member | corrected member |
|---|---|---|---|---|---|---|
| ooni/nettest.py:141-146 | `result.reporterFactory.firstrun` is read with no check that the factory exists | a `result` with no `reporterFactory` attribute: AttributeError | the docstring: without a reporter factory, skip the header write and run only the test's setup | medium, not executed | SetupCoordinator.DeferSetUpAsWritten, SetupCoordinator.MissingFactoryRaises | SetupCoordinator.DeferSetUpIntended |

`SetupCoordinator.Runs`, and so `SetupCoordinator.HeaderOnce`, use the
corrected `DeferSetUpIntended`.

## Left out

- Twisted `Deferred`/`DeferredList` behaviour: how the joined header write and setup complete, and how failures are collected. Only which actions are launched is modelled.
- The test body `test(result)` and trial's own `TestCase.deferSetUp` are external code. They are opaque steps: a trace record and the `TestSetUp` action.
- File I/O is abstracted: `os.path.isfile`, `open`, `xreadlines` and `fp.close` become a map from regular files to their contents or to a failing `open`. The lazy generator is modelled as the whole sequence it yields, so the closing of the file is not modelled.
- `log.debug`/`log.err` calls and `__repr__` are left out: they have no effect on the results.
- The class-level `report` dictionary and the command-line metadata (`optFlags`, `optParameters`, `usageOptions`, `requiresRoot`, `author`) are left out. They are declarative data used elsewhere.
- The `result` object that `run` returns is the one it was given. Only its `shouldStop` flag is modelled.
- An `inputs` attribute that is a generator rather than a list, where `inputs[0]` would raise `TypeError`, is not modelled: inputs are always a sequence.
- A test on which setting `input` succeeds but setting `_idx` raises is not distinguished from one on which both fail. `acceptsInput` is one flag for both attributes.
- SetupCoordinator.HeaderOnce: that the reporter factory clears `firstrun` after writing the header is a hypothesis. The factory is not part of this model.
- ProcessOptions.SelectInputs: a `str` path containing a NUL character makes `os.path.isfile` (line 188) raise `TypeError`; such paths are not modelled and behave like any path that is not a regular file.
- ProcessOptions.SelectInputs: assertions are assumed enabled. Under `python -O` the `assert` at line 184 is removed, so a non-`str` `inputFile` would reach `os.path.isfile` and `open`; that is not modelled.
- ProcessOptions.ProcessOptions: a replaced input processor is modelled as a function of the file's contents. One that raises, or that reads other state, is not modelled.
- Python 2 `str` is bytes and its `strip` uses the C locale's `isspace`; the model's strings are sequences of Unicode characters. For the six ASCII whitespace characters and `'\n'` the two agree; no other character is treated as whitespace.

=== FILE: input_processor.dfy ===
/** The default `inputProcessor` of a nettest: the file is read line by line
    (Python 2 `xreadlines`) and every line is yielded with `str.strip()`
    applied, one value per line and without any filtering. */
module InputProcessor {

  /** The characters Python 2's `str.strip()` removes when given no argument. */
  predicate IsSpace(c: char) {
    c == ' ' || c == '\t' || c == '\n' || c == '\r' || c == '\U{000B}' || c == '\U{000C}'
  }

  predicate AllSpace(s: string) {
    forall i :: 0 <= i < |s| ==> IsSpace(s[i])
  }

  /** A string with no whitespace at either end. */
  predicate Stripped(s: string) {
    |s| == 0 || (!IsSpace(s[0]) && !IsSpace(s[|s| - 1]))
  }

  /** Number of whitespace characters at the start of `s`. */
  function LeadingSpace(s: string): (n: nat)
    ensures n <= |s|
    ensures forall i :: 0 <= i < n ==> IsSpace(s[i])
    ensures n < |s| ==> !IsSpace(s[n])
  {
    if |s| == 0 || !IsSpace(s[0]) then 0 else 1 + LeadingSpace(s[1..])
  }

  /** Number of whitespace characters at the end of `s`. */
  function TrailingSpace(s: string): (n: nat)
    ensures n <= |s|
    ensures forall i :: |s| - n <= i < |s| ==> IsSpace(s[i])
    ensures n < |s| ==> !IsSpace(s[|s| - n - 1])
  {
    if |s| == 0 || !IsSpace(s[|s| - 1]) then 0 else 1 + TrailingSpace(s[..|s| - 1])
  }

  /** Where the stripped text starts in `s`. */
  function StripStart(s: string): nat {
    LeadingSpace(s)
  }

  /** Where the stripped text ends in `s` (exclusive). */
  function StripEnd(s: string): nat {
    if LeadingSpace(s) == |s| then |s| else |s| - TrailingSpace(s)
  }

  /** Python 2 `s.strip()`: `s` without its leading and trailing whitespace. */
  function Strip(s: string): (r: string)
    ensures StripStart(s) <= StripEnd(s) <= |s|
    ensures r == s[StripStart(s)..StripEnd(s)]
    ensures AllSpace(s[..StripStart(s)]) && AllSpace(s[StripEnd(s)..])
    ensures Stripped(r)
    ensures |r| == 0 <==> AllSpace(s)
  {
    s[StripStart(s)..StripEnd(s)]
  }

  /** `Strip` is determined by its meaning: whenever `s` is some whitespace,
      then a text with no whitespace at either end, then some whitespace, the
      strip of `s` is that text. */
  lemma StripUnique(s: string, pre: string, mid: string, post: string)
    requires s == pre + mid + post
    requires AllSpace(pre) && AllSpace(post) && Stripped(mid)
    ensures Strip(s) == mid
  {
    if |mid| == 0 {
      assert AllSpace(s) by {
        forall i | 0 <= i < |s| ensures IsSpace(s[i]) {
          if i < |pre| { assert s[i] == pre[i]; } else { assert s[i] == post[i - |pre|]; }
        }
      }
    } else {
      assert forall i :: 0 <= i < |pre| ==> s[i] == pre[i];
      assert forall i :: 0 <= i < |post| ==> s[|pre| + |mid| + i] == post[i];
      assert s[|pre|] == mid[0];
      assert s[|pre| + |mid| - 1] == mid[|mid| - 1];
      assert LeadingSpace(s) == |pre|;
      assert TrailingSpace(s) == |post|;
      assert s[|pre|..|s| - |post|] == mid;
    }
  }

  /** Applying strip again to a stripped value leaves it unchanged. */
  lemma StripIdempotent(s: string)
    ensures Strip(Strip(s)) == Strip(s)
  {
    var r := Strip(s);
    assert r == [] + r + [];
    StripUnique(r, [], r, []);
  }

  /** A line as `xreadlines` yields it: non-empty, with a newline at most as
      its last character. */
  predicate IsLine(l: string) {
    |l| > 0 && forall j :: 0 <= j < |l| - 1 ==> l[j] != '\n'
  }

  /** Length of the first line of `s`, its terminating newline included. */
  function LineLength(s: string): (k: nat)
    requires |s| > 0
    ensures 0 < k <= |s|
    ensures forall j :: 0 <= j < k - 1 ==> s[j] != '\n'
    ensures s[k - 1] == '\n' || k == |s|
  {
    if s[0] == '\n' || |s| == 1 then 1 else 1 + LineLength(s[1..])
  }

  function Concat(ls: seq<string>): string {
    if |ls| == 0 then [] else ls[0] + Concat(ls[1..])
  }

  /** `l` is non-empty and its last character is `c`. */
  predicate EndsWith(l: string, c: char) {
    |l| > 0 && l[|l| - 1] == c
  }

  /** Every line but the last one ends with a newline. */
  predicate Terminated(ls: seq<string>) {
    forall i :: 0 <= i < |ls| - 1 ==> EndsWith(ls[i], '\n')
  }

  /** A split of a file's contents into lines. */
  predicate IsLineSplit(s: string, ls: seq<string>) {
    && Concat(ls) == s
    && (forall i :: 0 <= i < |ls| ==> IsLine(ls[i]))
    && Terminated(ls)
  }

  /** Python 2 `fp.xreadlines()` over contents `s`: the lines of `s`, each
      ending just after a newline, the final unterminated line kept. */
  function Lines(s: string): (ls: seq<string>)
    ensures IsLineSplit(s, ls)
    decreases |s|
  {
    if |s| == 0 then []
    else
      var k := LineLength(s);
      var rest := Lines(s[k..]);
      var ls := [s[..k]] + rest;
      assert ls[1..] == rest;
      assert s == s[..k] + s[k..];
      ls
  }

  /** The lines after the first one still have the line shape. */
  lemma TailSplit(s: string, ls: seq<string>)
    requires |ls| > 0 && IsLineSplit(s, ls)
    ensures s == ls[0] + Concat(ls[1..])
    ensures IsLineSplit(Concat(ls[1..]), ls[1..])
  {
    var tail := ls[1..];
    assert forall i :: 0 <= i < |tail| ==> tail[i] == ls[i + 1];
  }

  /** There is only one way to cut contents into lines: any split with the
      line shape is the one `Lines` returns. */
  lemma {:induction false} LinesUnique(s: string, ls: seq<string>)
    requires IsLineSplit(s, ls)
    ensures Lines(s) == ls
    decreases |s|
  {
    if |ls| == 0 {
      assert s == [];
    } else {
      var l := ls[0];
      TailSplit(s, ls);
      var k := LineLength(s);
      assert forall j :: 0 <= j < |l| ==> s[j] == l[j];
      assert k == |l|;
      assert s[..k] == l;
      LinesUnique(s[k..], ls[1..]);
      assert ls == [l] + ls[1..];
    }
  }

  lemma {:induction false} ConcatAppend(a: seq<string>, b: seq<string>)
    ensures Concat(a + b) == Concat(a) + Concat(b)
  {
    if |a| == 0 {
      assert a + b == b;
    } else {
      assert (a + b)[1..] == a[1..] + b;
      ConcatAppend(a[1..], b);
    }
  }

  /** The last line of a split ends where the contents end. */
  lemma {:induction false} LastLineEnd(s: string, ls: seq<string>)
    requires |ls| > 0 && IsLineSplit(s, ls)
    ensures |s| > 0 && EndsWith(ls[|ls| - 1], s[|s| - 1])
    decreases |ls|
  {
    TailSplit(s, ls);
    if |ls| == 1 {
      assert ls[1..] == [];
    } else {
      LastLineEnd(Concat(ls[1..]), ls[1..]);
      assert ls[1..][|ls| - 2] == ls[|ls| - 1];
    }
  }

  /** Two line splits, the first ending in a newline, put together. */
  lemma SplitAppend(a: string, la: seq<string>, b: string, lb: seq<string>)
    requires IsLineSplit(a, la) && IsLineSplit(b, lb)
    requires EndsWith(a, '\n')
    ensures IsLineSplit(a + b, la + lb)
  {
    ConcatAppend(la, lb);
    LastLineEnd(a, la);
    var ls := la + lb;
    assert forall i :: 0 <= i < |la| ==> ls[i] == la[i];
    assert forall i :: 0 <= i < |lb| ==> ls[|la| + i] == lb[i];
  }

  /** Reading a file in two pieces, the first ending in a newline, yields the
      lines of the first piece followed by the lines of the second. */
  lemma LinesAppend(a: string, b: string)
    requires EndsWith(a, '\n')
    ensures Lines(a + b) == Lines(a) + Lines(b)
  {
    SplitAppend(a, Lines(a), b, Lines(b));
    LinesUnique(a + b, Lines(a) + Lines(b));
  }

  /** Number of newline characters in `s`. */
  function Newlines(s: string): nat {
    if |s| == 0 then 0 else (if s[0] == '\n' then 1 else 0) + Newlines(s[1..])
  }

  lemma {:induction false} NewlinesAppend(a: string, b: string)
    ensures Newlines(a + b) == Newlines(a) + Newlines(b)
  {
    if |a| == 0 {
      assert a + b == b;
    } else {
      assert (a + b)[1..] == a[1..] + b;
      NewlinesAppend(a[1..], b);
    }
  }

  /** A line holds one newline if it is terminated and none otherwise. */
  lemma {:induction false} NewlinesOfLine(l: string)
    requires IsLine(l)
    ensures Newlines(l) == if l[|l| - 1] == '\n' then 1 else 0
  {
    if |l| > 1 {
      assert IsLine(l[1..]);
      NewlinesOfLine(l[1..]);
    }
  }

  /** A file yields one line per newline, plus one for a final line that has
      no newline. */
  lemma {:induction false} LinesCount(s: string)
    ensures |Lines(s)| == Newlines(s) + (if |s| > 0 && s[|s| - 1] != '\n' then 1 else 0)
    decreases |s|
  {
    if |s| > 0 {
      var k := LineLength(s);
      assert s == s[..k] + s[k..];
      NewlinesAppend(s[..k], s[k..]);
      assert IsLine(s[..k]);
      NewlinesOfLine(s[..k]);
      LinesCount(s[k..]);
      if s[k - 1] != '\n' {
        assert k == |s|;
      } else if k < |s| {
        assert s[k..][|s[k..]| - 1] == s[|s| - 1];
      }
    }
  }

  /** The default input processor over a file with contents `contents`: the
      values it yields, in order. */
  function Process(contents: string): (vs: seq<string>)
    ensures |vs| == |Lines(contents)|
    ensures forall i :: 0 <= i < |vs| ==> vs[i] == Strip(Lines(contents)[i])
  {
    var ls := Lines(contents);
    seq(|ls|, i requires 0 <= i < |ls| => Strip(ls[i]))
  }

  /** Stripping a line removes its newline. */
  lemma StripLine(l: string)
    requires IsLine(l)
    ensures '\n' !in Strip(l)
  {
    var v := Strip(l);
    var lo := StripStart(l);
    forall j | 0 <= j < |v| ensures v[j] != '\n' {
      assert v[j] == l[lo + j];
      if lo + j == |l| - 1 {
        assert j == |v| - 1;
      }
    }
  }

  /** What each yielded value looks like: no whitespace at either end, no
      newline inside, unchanged by a second strip, and `""` exactly for a
      blank line. */
  lemma ProcessValues(contents: string, i: int)
    requires 0 <= i < |Process(contents)|
    ensures Stripped(Process(contents)[i])
    ensures Strip(Process(contents)[i]) == Process(contents)[i]
    ensures '\n' !in Process(contents)[i]
    ensures Process(contents)[i] == "" <==> AllSpace(Lines(contents)[i])
  {
    var l := Lines(contents)[i];
    StripIdempotent(l);
    StripLine(l);
  }

  /** The processor yields exactly one value per line of the file. */
  lemma ProcessCount(contents: string)
    ensures |Process(contents)| == Newlines(contents)
      + (if |contents| > 0 && contents[|contents| - 1] != '\n' then 1 else 0)
  {
    LinesCount(contents);
  }

  /** Values come out in file order: the values of a file are those of its
      first lines followed by those of the lines after them. */
  lemma ProcessAppend(a: string, b: string)
    requires EndsWith(a, '\n')
    ensures Process(a + b) == Process(a) + Process(b)
  {
    LinesAppend(a, b);
  }

  /** The two-line example: surrounding blanks and newlines are removed. */
  lemma ProcessExample()
    ensures Process("  foo \nbar\n") == ["foo", "bar"]
  {
    var l0, l1 := "  foo \n", "bar\n";
    ExampleLines(l0, l1);
    StripUnique(l0, "  ", "foo", " \n");
    StripUnique(l1, "", "bar", "\n");
    assert l0 + l1 == "  foo \nbar\n";
  }

  lemma ExampleLines(l0: string, l1: string)
    requires l0 == "  foo \n" && l1 == "bar\n"
    ensures Lines(l0 + l1) == [l0, l1]
  {
    assert Concat([l1]) == l1 by { assert [l1][1..] == []; }
    assert Concat([l0, l1]) == l0 + l1 by { assert [l0, l1][1..] == [l1]; }
    assert IsLine(l0) && IsLine(l1);
    LinesUnique(l0 + l1, [l0, l1]);
  }
}

=== FILE: input_suite.dfy ===
/** `InputTestSuite.run`: drain the queue of tests front first, stamp each
    one with the suite's input and a running index, run it, and stop early
    when the result object asks to. */
module InputSuite {
  import opened Values

  /** A queued test. `acceptsInput` is false for a test object on which
      setting `input` and `_idx` raises; such a test still runs. */
  datatype Test = Test(name: string, acceptsInput: bool)

  /** The suite's state: the queue `_tests`, the `input` every test is
      stamped with, and the running index `_idx`. The class declares no
      `input`, so it is `None` here until a caller sets it. */
  datatype Suite = Suite(tests: seq<Test>, input: Option<Value>, idx: int)

  /** One call `test(result)`: the test, the suite's input and index at that
      moment, and whether the test took them. */
  datatype Execution = Execution(test: Test, input: Option<Value>, idx: int, stamped: bool)

  /** A test is stamped when the suite has an `input` to read and the test
      accepts the assignment; otherwise the `AttributeError` (or the test's
      own refusal) is logged and the test runs unstamped. */
  predicate Stamps(input: Option<Value>, test: Test) {
    input.Some? && test.acceptsInput
  }

  /** Value of `result.shouldStop` after the executions so far. It belongs to
      the result object, which the tests themselves may update. */
  type StopFlag = seq<Execution> -> bool

  /** What running `tests` one after the other, never stopping, executes:
      the `i`-th test gets index `idx + i`. */
  function Executions(tests: seq<Test>, input: Option<Value>, idx: int): (es: seq<Execution>)
    ensures |es| == |tests|
    ensures forall i :: 0 <= i < |es| ==>
      es[i] == Execution(tests[i], input, idx + i, Stamps(input, tests[i]))
  {
    seq(|tests|, i requires 0 <= i < |tests| => Execution(tests[i], input, idx + i, Stamps(input, tests[i])))
  }

  /** `suite.run(result, idx)`. Returns the suite afterwards and the
      executions performed, in order; `result` itself is handed back
      unchanged by the source and is not modelled beyond `shouldStop`. */
  method Run(suite: Suite, idx: int, shouldStop: StopFlag) returns (after: Suite, trace: seq<Execution>)
    // tests run at most once each, front first, with contiguous indices
    ensures |trace| <= |suite.tests|
    ensures trace == Executions(suite.tests, suite.input, idx)[..|trace|]
    // the tests not run stay queued, untouched, and the index counts the runs
    ensures after == Suite(suite.tests[|trace|..], suite.input, idx + |trace|)
    // the flag is polled before every pop, and only it ends the run early
    ensures forall k :: 0 <= k < |trace| ==> !shouldStop(trace[..k])
    ensures |trace| < |suite.tests| ==> shouldStop(trace)
    // a suite whose `input` was never set stamps no test
    ensures suite.input.None? ==> forall i :: 0 <= i < |trace| ==> !trace[i].stamped
  {
    var tests := suite.tests;
    var current := idx;
    trace := [];
    while |tests| > 0
      invariant 0 <= |trace| <= |suite.tests|
      invariant tests == suite.tests[|trace|..]
      invariant current == idx + |trace|
      invariant trace == Executions(suite.tests, suite.input, idx)[..|trace|]
      invariant forall k :: 0 <= k < |trace| ==> !shouldStop(trace[..k])
    {
      if shouldStop(trace) {
        break;
      }
      var test := tests[0];
      tests := tests[1..];
      // reading the suite's `input` or setting the test's attributes may
      // raise; the failure is logged and the test runs all the same
      var stamped := suite.input.Some? && test.acceptsInput;
      var before := trace;
      trace := trace + [Execution(test, suite.input, current, stamped)];
      forall k | 0 <= k <= |before|
        ensures trace[..k] == before[..k]
      {
      }
      current := current + 1;
    }
    after := Suite(tests, suite.input, current);
  }

  /** Stopping loses nothing: the tests left queued, run from the index the
      stopped run reached, execute exactly what the uninterrupted run would
      have executed from there. */
  lemma {:induction false} ResumeContinues(tests: seq<Test>, input: Option<Value>, idx: int, k: nat)
    requires k <= |tests|
    ensures Executions(tests, input, idx)
      == Executions(tests, input, idx)[..k] + Executions(tests[k..], input, idx + k)
  {
    var whole := Executions(tests, input, idx);
    var rest := Executions(tests[k..], input, idx + k);
    forall i | k <= i < |tests|
      ensures whole[i] == rest[i - k]
    {
      assert tests[k..][i - k] == tests[i];
    }
    assert whole == whole[..k] + rest;
  }
}

=== FILE: process_options.dfy ===
/** `NetTestCase._processOptions`: where a nettest's inputs come from, and
    whether the options it requires were given. */
module ProcessOptions {
  import opened Values
  import InputProcessor

  /** The `inputFile` attribute: unset (`None`), a `str` path, or any other
      object (the documented four-element list, say), of which only its
      truthiness matters here. */
  datatype InputFile = Unset | Path(path: string) | NonString(truthy: bool)

  predicate InputFileTruthy(f: InputFile) {
    match f
    case Unset => false
    case Path(p) => |p| > 0
    case NonString(t) => t
  }

  /** The nettest attributes `_processOptions` reads and writes. */
  datatype NetTest = NetTest(
    name: string,
    version: string,
    inputs: seq<Value>,
    inputFile: InputFile,
    requiredOptions: seq<string>)

  /** A regular file: one the process may open, with its contents, or one
      `open` fails on (no read permission, say). */
  datatype FileEntry = Readable(contents: string) | Unreadable

  /** The paths that are regular files (`os.path.isfile`). */
  type FileSystem = map<string, FileEntry>

  /** The options mapping handed over by the command line layer, if any. */
  type Options = Option<map<string, Value>>

  /** A dictionary is truthy when it is not empty. */
  predicate OptionsTruthy(options: Options) {
    options.Some? && |options.value| > 0
  }

  /** What `_processOptions` returns on success. */
  datatype Description = Description(inputs: seq<Value>, name: string, version: string)

  /** The nettest after the call (its `inputs` may have been replaced) and
      what the call returned or raised. */
  datatype Processed = Processed(test: NetTest, outcome: Result<Description>)

  /** A nettest's `inputProcessor`: what it yields for the contents of the
      file it is handed. A nettest may replace the default one (to skip
      comment lines, say); only the default's internals are modelled. */
  type Processor = string -> seq<Value>

  /** The inputs read from a file, as the default input processor yields them. */
  function FileInputs(contents: string): (vs: seq<Value>)
    ensures |vs| == |InputProcessor.Process(contents)|
    ensures forall i :: 0 <= i < |vs| ==> vs[i] == Text(InputProcessor.Process(contents)[i])
  {
    var lines := InputProcessor.Process(contents);
    seq(|lines|, i requires 0 <= i < |lines| => Text(lines[i]))
  }

  /** `inputFile` is a non-empty `str` naming an existing regular file, so
      the selection opens it. */
  predicate OpensFile(t: NetTest, fs: FileSystem) {
    t.inputFile.Path? && |t.inputFile.path| > 0 && t.inputFile.path in fs
  }

  /** The inputs come from a file exactly when that file can be opened. */
  predicate ReadsFile(t: NetTest, fs: FileSystem) {
    OpensFile(t, fs) && fs[t.inputFile.path].Readable?
  }

  /** `open` raises on the file the selection opens. */
  predicate OpenFails(t: NetTest, fs: FileSystem) {
    OpensFile(t, fs) && fs[t.inputFile.path].Unreadable?
  }

  const NoInputFileMessage := "No input file specified!"

  /** The input-source selection, branch for branch. A non-`str` `inputFile`
      is only logged; a path that is not a file leaves `inputs` as they were;
      `open` on an unreadable file raises out of the call.
      The third branch repeats the first branch's test, so it never runs. */
  function SelectInputs(t: NetTest, fs: FileSystem, processor: Processor): (r: Result<seq<Value>>)
    ensures r.Raised? <==> (!InputFileTruthy(t.inputFile) && |t.inputs| == 0) || OpenFails(t, fs)
    ensures OpenFails(t, fs) ==> r == Raised(IOError(t.inputFile.path))
    ensures r.Raised? && !OpenFails(t, fs) ==> r.error == IndexError
    ensures ReadsFile(t, fs) ==> r == Ok(processor(fs[t.inputFile.path].contents))
    ensures r.Ok? && !ReadsFile(t, fs) ==> r.value == t.inputs
  {
    if InputFileTruthy(t.inputFile) then
      match t.inputFile
      case Path(p) =>
        if p in fs then
          match fs[p]
          case Readable(contents) => Ok(processor(contents))
          case Unreadable => Raised(IOError(p))
        else Ok(t.inputs)
      case _ => Ok(t.inputs)
    else if |t.inputs| == 0 then Raised(IndexError)
    else if !Truthy(t.inputs[0]) then Ok(t.inputs)
    else if InputFileTruthy(t.inputFile) then
      assert false;
      Raised(UsageError(NoInputFileMessage))
    else Ok(t.inputs)
  }

  /** A required option is satisfied when the mapping holds a truthy value for it. */
  predicate Satisfied(opts: map<string, Value>, name: string) {
    name in opts && Truthy(opts[name])
  }

  /** Position of the first required option, in list order, that is not
      satisfied; `|names|` when all are. */
  function FirstUnsatisfied(opts: map<string, Value>, names: seq<string>): (k: nat)
    ensures k <= |names|
    ensures forall i :: 0 <= i < k ==> Satisfied(opts, names[i])
    ensures k < |names| ==> !Satisfied(opts, names[k])
  {
    if |names| == 0 then 0
    else if !Satisfied(opts, names[0]) then 0
    else 1 + FirstUnsatisfied(opts, names[1..])
  }

  function NotSpecified(name: string): string {
    name + " not specified!"
  }

  /** The required-option check: skipped when the options mapping is falsy,
      otherwise the first unsatisfied name raises (`KeyError` when it is
      missing from the mapping, `UsageError` when its value is falsy). */
  function CheckRequired(options: Options, names: seq<string>): (r: Option<Error>)
    ensures r.None? <==> !OptionsTruthy(options) || forall i :: 0 <= i < |names| ==> Satisfied(options.value, names[i])
  {
    if !OptionsTruthy(options) then None
    else
      var opts := options.value;
      var k := FirstUnsatisfied(opts, names);
      if k == |names| then None
      else if names[k] !in opts then Some(KeyError(names[k]))
      else Some(UsageError(NotSpecified(names[k])))
  }

  /** `_processOptions(options)` on nettest `t`, whose input processor is
      `processor`, with the file system `fs`. */
  function ProcessOptions(t: NetTest, fs: FileSystem, processor: Processor, options: Options): (r: Processed)
    // only `inputs` may change, and only to the processed file contents
    ensures r.test == t.(inputs := r.test.inputs)
    ensures ReadsFile(t, fs) ==> r.test.inputs == processor(fs[t.inputFile.path].contents)
    ensures !ReadsFile(t, fs) ==> r.test.inputs == t.inputs
    // success returns exactly the name, the version and the resolved inputs
    ensures r.outcome.Ok? ==> r.outcome.value == Description(r.test.inputs, t.name, t.version)
    ensures r.outcome.Ok? <==>
      && (InputFileTruthy(t.inputFile) || |t.inputs| > 0)
      && !OpenFails(t, fs)
      && (!OptionsTruthy(options) || forall i :: 0 <= i < |t.requiredOptions| ==> Satisfied(options.value, t.requiredOptions[i]))
    // an unreadable file raises IOError before any option is checked
    ensures OpenFails(t, fs) ==> r.outcome == Raised(IOError(t.inputFile.path))
    // a usage error always names a required option
    ensures r.outcome.Raised? && r.outcome.error.UsageError? ==>
      exists name :: name in t.requiredOptions && r.outcome.error.message == NotSpecified(name)
  {
    match SelectInputs(t, fs, processor)
    case Raised(e) => Processed(t, Raised(e))
    case Ok(inputs) =>
      var t' := t.(inputs := inputs);
      match CheckRequired(options, t.requiredOptions)
      case Some(e) => Processed(t', Raised(e))
      case None => Processed(t', Ok(Description(inputs, t.name, t.version)))
  }

  /** The required options are checked in list order: when the input
      selection succeeded and the `k`-th is the first one unsatisfied, it is
      the one reported. */
  lemma FirstUnsatisfiedReported(t: NetTest, fs: FileSystem, processor: Processor, options: Options, k: nat)
    requires SelectInputs(t, fs, processor).Ok?
    requires OptionsTruthy(options)
    requires k < |t.requiredOptions|
    requires forall i :: 0 <= i < k ==> Satisfied(options.value, t.requiredOptions[i])
    requires !Satisfied(options.value, t.requiredOptions[k])
    ensures ProcessOptions(t, fs, processor, options).outcome ==
      Raised(if t.requiredOptions[k] in options.value
             then UsageError(NotSpecified(t.requiredOptions[k]))
             else KeyError(t.requiredOptions[k]))
  {
    assert FirstUnsatisfied(options.value, t.requiredOptions) == k;
  }

  /** A falsy options mapping skips the required-option check entirely:
      the call succeeds whenever the input selection does. */
  lemma NoOptionsNoCheck(t: NetTest, fs: FileSystem, processor: Processor, options: Options)
    requires SelectInputs(t, fs, processor).Ok?
    requires !OptionsTruthy(options)
    ensures ProcessOptions(t, fs, processor, options).outcome.Ok?
  {
  }

  /** The message for a required option never reads "No input file specified!". */
  lemma NotSpecifiedDiffers(name: string)
    ensures NotSpecified(name) != NoInputFileMessage
  {
    var m := NotSpecified(name);
    if |m| == |NoInputFileMessage| {
      assert m[|name|] == ' ';
      assert NoInputFileMessage[9] == 'f';
    }
  }

  /** `UsageError("No input file specified!")` is never raised. */
  lemma NoInputFileNeverRaised(t: NetTest, fs: FileSystem, processor: Processor, options: Options)
    ensures ProcessOptions(t, fs, processor, options).outcome != Raised(UsageError(NoInputFileMessage))
  {
    var r := ProcessOptions(t, fs, processor, options);
    if r.outcome.Raised? && r.outcome.error.UsageError? {
      var name :| name in t.requiredOptions && r.outcome.error.message == NotSpecified(name);
      NotSpecifiedDiffers(name);
    }
  }

  /** A non-empty path that is not a regular file is silently ignored: the
      input selection keeps the inputs as configured (for instance the
      default `[None]`) and raises nothing, so the call fails only if the
      required-option check does. An empty path is falsy and takes the
      `inputs[0]` branch instead. */
  lemma MissingFileKeepsInputs(t: NetTest, fs: FileSystem, processor: Processor, options: Options)
    requires t.inputFile.Path? && t.inputFile.path !in fs
    ensures ProcessOptions(t, fs, processor, options).test.inputs == t.inputs
    ensures |t.inputFile.path| > 0 ==> SelectInputs(t, fs, processor) == Ok(t.inputs)
    ensures |t.inputFile.path| > 0 ==>
      (ProcessOptions(t, fs, processor, options).outcome.Ok? <==> CheckRequired(options, t.requiredOptions).None?)
  {
  }

  /** A regular file that `open` fails on: the `IOError` leaves the call
      before the input processor runs, and the nettest is left unchanged. */
  lemma UnreadableFileRaises(t: NetTest, fs: FileSystem, processor: Processor, options: Options)
    requires OpenFails(t, fs)
    ensures ProcessOptions(t, fs, processor, options).outcome == Raised(IOError(t.inputFile.path))
    ensures ProcessOptions(t, fs, processor, options).test == t
  {
  }

  /** With the default input processor, a readable file yields one `str`
      per line of it, in file order, each stripped of surrounding
      whitespace and holding no newline. */
  lemma DefaultProcessorInputs(t: NetTest, fs: FileSystem, options: Options, i: int)
    requires ReadsFile(t, fs)
    requires 0 <= i < |ProcessOptions(t, fs, FileInputs, options).test.inputs|
    ensures |ProcessOptions(t, fs, FileInputs, options).test.inputs|
      == |InputProcessor.Lines(fs[t.inputFile.path].contents)|
    ensures ProcessOptions(t, fs, FileInputs, options).test.inputs[i]
      == Text(InputProcessor.Strip(InputProcessor.Lines(fs[t.inputFile.path].contents)[i]))
    ensures InputProcessor.Stripped(ProcessOptions(t, fs, FileInputs, options).test.inputs[i].text)
    ensures '\n' !in ProcessOptions(t, fs, FileInputs, options).test.inputs[i].text
  {
    InputProcessor.ProcessValues(fs[t.inputFile.path].contents, i);
  }
}

=== FILE: setup.dfy ===
/** `NetTestCase.deferSetUp`: on the first run of a report the header write
    is launched together with the test's own setup and both are joined; on
    every later run only the setup is launched. Only which actions are
    launched is modelled, not how the pending results complete. */
module SetupCoordinator {
  import opened Values

  datatype Action = WriteHeader | TestSetUp

  /** The pending result `deferSetUp` returns: one action's deferred, or a
      `DeferredList` joining two of them in launch order. */
  datatype Pending = Single(action: Action) | Joined(first: Action, second: Action)

  /** The actions a pending result waits for, in launch order. */
  function Launched(p: Pending): seq<Action> {
    match p
    case Single(a) => [a]
    case Joined(a, b) => [a, b]
  }

  /** `deferSetUp` given the reporter factory's `firstrun` flag. The flag is
      only read: the function has no way to change it. */
  function DeferSetUp(firstrun: bool): (p: Pending)
    ensures TestSetUp in Launched(p)
    ensures WriteHeader in Launched(p) <==> firstrun
    ensures p.Joined? <==> firstrun
    ensures Launched(p)[|Launched(p)| - 1] == TestSetUp
    ensures forall i, j :: 0 <= i < j < |Launched(p)| ==> Launched(p)[i] != Launched(p)[j]
  {
    if firstrun then Joined(WriteHeader, TestSetUp) else Single(TestSetUp)
  }

  /** The part of `result.reporterFactory` that `deferSetUp` reads. */
  datatype ReporterFactory = ReporterFactory(firstrun: bool)

  /** `deferSetUp` as written: `result.reporterFactory.firstrun` is read
      with no guard, so a result without a reporter factory raises. */
  function DeferSetUpAsWritten(factory: Option<ReporterFactory>): (r: Result<Pending>)
    ensures r.Raised? <==> factory.None?
    ensures factory.Some? ==> r == Ok(DeferSetUp(factory.value.firstrun))
  {
    match factory
    case None => Raised(AttributeError("reporterFactory"))
    case Some(f) => Ok(DeferSetUp(f.firstrun))
  }

  /** The method's documentation promises that without a reporter factory
      the header write is skipped and only the test runs; as written the
      call raises instead. */
  lemma MissingFactoryRaises()
    ensures DeferSetUpAsWritten(None) == Raised(AttributeError("reporterFactory"))
    ensures DeferSetUpAsWritten(None) != Ok(Single(TestSetUp))
  {
  }

  /** `deferSetUp` as documented: with no reporter factory only the test's
      setup is launched; with one it behaves as the code does. */
  function DeferSetUpIntended(factory: Option<ReporterFactory>): (p: Pending)
    ensures TestSetUp in Launched(p)
    ensures WriteHeader in Launched(p) <==> factory.Some? && factory.value.firstrun
    ensures factory.None? ==> p == Single(TestSetUp)
    ensures factory.Some? ==> DeferSetUpAsWritten(factory) == Ok(p)
  {
    match factory
    case None => Single(TestSetUp)
    case Some(f) => DeferSetUp(f.firstrun)
  }

  /** The actions of `n` successive runs, starting from `firstrun`, for a
      reporter factory that clears `firstrun` once it has been asked to
      write the header (the factory is not part of this model; that it
      behaves so is the hypothesis of this function). */
  function Runs(firstrun: bool, n: nat): seq<Action> {
    if n == 0 then []
    else
      var p := DeferSetUpIntended(Some(ReporterFactory(firstrun)));
      Launched(p) + Runs(firstrun && WriteHeader !in Launched(p), n - 1)
  }

  function Count(acts: seq<Action>, a: Action): nat {
    if |acts| == 0 then 0 else (if acts[0] == a then 1 else 0) + Count(acts[1..], a)
  }

  lemma {:induction false} CountAppend(xs: seq<Action>, ys: seq<Action>, a: Action)
    ensures Count(xs + ys, a) == Count(xs, a) + Count(ys, a)
  {
    if |xs| == 0 {
      assert xs + ys == ys;
    } else {
      assert (xs + ys)[1..] == xs[1..] + ys;
      CountAppend(xs[1..], ys, a);
    }
  }

  /** Across a suite the header is written once (if the factory starts in
      its first run) while every run gets its setup. */
  lemma {:induction false} HeaderOnce(firstrun: bool, n: nat)
    ensures Count(Runs(firstrun, n), WriteHeader) == if firstrun && n > 0 then 1 else 0
    ensures Count(Runs(firstrun, n), TestSetUp) == n
  {
    if n > 0 {
      var p := DeferSetUpIntended(Some(ReporterFactory(firstrun)));
      CountAppend(Launched(p), Runs(false, n - 1), WriteHeader);
      CountAppend(Launched(p), Runs(false, n - 1), TestSetUp);
      HeaderOnce(false, n - 1);
      if firstrun {
        assert Launched(p) == [WriteHeader, TestSetUp];
        assert Count([TestSetUp], WriteHeader) == 0;
        assert Count([TestSetUp], TestSetUp) == 1;
      } else {
        assert Count([TestSetUp], WriteHeader) == 0;
        assert Count([TestSetUp], TestSetUp) == 1;
      }
    }
  }
}

=== FILE: values.dfy ===
/** Python values as the nettest core sees them: opaque inputs and option
    values with Python's truthiness, the errors it raises, and the small
    Option/Result wrappers the rest of the model uses. */
module Values {

  datatype Option<+T> = None | Some(value: T)

  /** An input or option value. `Null` is Python's `None`, `Text` a `str`;
      any other object is `Other`, carrying only whether it is truthy. */
  datatype Value = Null | Text(text: string) | Other(truthy: bool)

  /** Python truthiness: `None` and `""` are false. */
  predicate Truthy(v: Value) {
    match v
    case Null => false
    case Text(s) => |s| > 0
    case Other(t) => t
  }

  /** The exceptions that can leave the modelled operations. */
  datatype Error =
    | UsageError(message: string)  // twisted.python.usage.UsageError
    | KeyError(key: string)        // an option name absent from the options mapping
    | IndexError                   // `inputs[0]` on an empty inputs list
    | AttributeError(name: string) // reading an attribute the object does not have
    | IOError(path: string)        // `open` on a regular file that cannot be read

  datatype Result<+T> = Ok(value: T) | Raised(error: Error)
}
